=== FILE: README.md ===
# Pendulum and spring-mass simulators, modelled in Dafny

This project models the logic of two small educational physics simulators.

- **The pendulum window** (`python-pendulum-simulation.py`) advances a damped
  pendulum with a semi-implicit Euler step. The step is capped at 0.05 s.
  Start, Pause and Reset buttons drive the run. Four sliders (length,
  gravity, damping, initial angle) snap the mouse position onto a step grid,
  and whenever any slider changes the script copies the length, gravity
  and damping values into the physics. The angle slider reaches the
  pendulum's angle only when its own second `update` fires in that frame,
  or through Reset. While the pendulum runs, a FIFO trail keeps the last
  100 bob positions.
- **The spring-mass window** (`shm-simulation.py`) works out a damped
  oscillator's position in closed form. It has an undamped, an underdamped
  and an "overdamped" branch, where the last is the script's single-exponential
  approximation. It also derives ω, the period and the frequency. On every
  parameter change it resamples the whole position sequence over a fixed
  1000-point time grid. It maps an animation frame number to an index into
  that sequence, and it lays out the zig-zag polyline of the spring.

Everything is over Dafny `real`. `sin`, `cos`, `exp` and `sqrt` are left
uninterpreted. They are the fields of a `RealMath.Math` value passed in as a
parameter. Only the properties that need them assume `RealMath.Lawful`, which
states these facts: sin 0 = 0, cos 0 = 1, sin²x + cos²x = 1, exp 0 = 1, and
for x ≥ 0, sqrt(x) ≥ 0 and sqrt(x)² = x. The non-negativity of `sqrt` is what makes the script's
`omega_d > 0` test equivalent to ω² > γ².

Modules:

- `RealMath` (`real_math.dfy`): π, the uninterpreted functions, `radians`,
  clamping and Python's floored `%`.
- `Trail` (`trail.dfy`): the bounded trail buffer.
- `Sliders` (`slider.dfy`): `Slider.update` and `Slider.check_click`, plus
  Python's round-half-to-even.
- `Pendulum` (`pendulum.dfy`): `update_physics`, the dt cap, the bob position
  and the period.
- `PendulumApp` (`pendulum_app.dfy`): one pass of the main loop as a pure
  `Frame(state, inputs)`, and runs of many frames.
- `Grid` (`grid.dfy`): `np.linspace`.
- `Oscillator` (`oscillator.dfy`): `x_position`, the derived quantities,
  `update` and `animate`'s index.
- `Spring` (`spring.dfy`): `spring_points`.

Three behaviours of the code are easy to get wrong:

- Reset does not stop the simulation. `reset_simulation` leaves
  `simulation_running` alone, so a running pendulum restarts from the slider
  angle and keeps swinging.
- A step with `dt = 0` does change the state. The angle and angular velocity
  stay the same, but `angular_acceleration` is rewritten.
- An undefined period is not signalled. `math.sqrt` and the division would
  raise instead, so `Pendulum.Period` requires what they need. The state
  invariant `PendulumApp.Valid` guarantees it in every reachable state.

## Model

| member | source | states |
|---|---|---|
| RealMath.Radians | python-pendulum-simulation.py:164 | the result times 180 equals the degrees times π |
| RealMath.Clamp | python-pendulum-simulation.py:114 | the result lies in `[lo, hi]`; a value already inside is kept and one outside goes to the nearer bound |
| RealMath.FloorMod | shm-simulation.py:87 | Python's `%` by a positive divisor always lands in `[0, d)`, and leaves a value already in `[0, d)` unchanged |
| Trail.Push | python-pendulum-simulation.py:289-291 | appending and then evicting the oldest point leaves exactly the last 100 points of `trail + [p]` |
| Trail.PushAllKeepsLast | python-pendulum-simulation.py:288-291 | after any number of pushes the trail is the last 100 of the old trail followed by the pushed points, in push order |
| Sliders.RoundHalfEven | python-pendulum-simulation.py:111 | the result is within 1/2 of the input, and an exact tie goes to the even integer |
| Sliders.Ratio | python-pendulum-simulation.py:107 | the ratio lies in `[0, 1]`; on the track it is `(x - left)/width`; it is 0 left of the track and 1 right of it |
| Sliders.RawValue | python-pendulum-simulation.py:107-109 | the unrounded value lies in `[min_val, max_val]`; it is `min_val` at or left of the track's left end and `max_val` at or right of its right end; on the track it moves in proportion to the mouse x |
| Sliders.Update | python-pendulum-simulation.py:104-118 | the value changes (and `True` is returned) iff both `is_dragging` and `self.dragging` hold; otherwise the slider is untouched; a changed value lies in `[min_val, max_val]`; nothing but the value changes |
| Sliders.CheckClick | python-pendulum-simulation.py:120-126 | only the drag flag changes; it is set iff the knob was clicked, or it was already set and the button is still held |
| Sliders.SnappedIsNearestGridPoint | python-pendulum-simulation.py:109-114 | before the clamp the value is the grid point `min_val + n*step` within half a step of the raw value, and the stored value is that grid point clamped |
| Sliders.ClampIdleOnAlignedGrid | python-pendulum-simulation.py:111-114 | when the range is a whole number `n` of steps, the step count lies in `[0, n]` and the final clamp changes nothing |
| Pendulum.CapDt | python-pendulum-simulation.py:285 | the dt handed to the integrator is at most 0.05 and is the frame's dt whenever that is smaller |
| Pendulum.Step | python-pendulum-simulation.py:146-159 | the acceleration is `-(g/L) sin(angle) - damping*vel` at the old state; velocity grows by acceleration×dt; the angle grows by the new velocity×dt |
| Pendulum.StepZeroDt | python-pendulum-simulation.py:146-159 | with dt = 0, angle and angular velocity are unchanged and only the acceleration is rewritten |
| Pendulum.StepIsSemiImplicit | python-pendulum-simulation.py:156-159 | the new angle is the explicit Euler angle plus acceleration×dt², because the new velocity is used |
| Pendulum.ResetMotion | python-pendulum-simulation.py:164-166 | velocity and acceleration become 0 and the angle is the slider's degrees in radians |
| Pendulum.BobAtRest | python-pendulum-simulation.py:140-143 | at angle 0 the bob hangs straight below the pivot, `length * 150` pixels down |
| Pendulum.BobOnCircle | python-pendulum-simulation.py:140-143 | at every angle the bob is exactly `length * 150` pixels from the pivot |
| Pendulum.Period | python-pendulum-simulation.py:198 | with lawful `sqrt`, the period is non-negative with square `4π²L/g`, and positive for a positive length |
| PendulumApp.Init | python-pendulum-simulation.py:20-26 | the initial state satisfies the loop invariant: stopped, empty trail, at rest, at 30 degrees |
| PendulumApp.ButtonAction | python-pendulum-simulation.py:255-260 | exactly one outcome per frame; Start acts iff clicked; Pause iff clicked and Start not; Reset iff clicked and neither other |
| PendulumApp.ButtonsDisjoint | python-pendulum-simulation.py:129-131 | no mouse position is over two buttons, so Pause and Reset each act exactly when clicked |
| PendulumApp.ResetSim | python-pendulum-simulation.py:162-167 | velocity, acceleration and trail are cleared and the angle comes from the slider; the run flag, parameters and sliders are untouched |
| PendulumApp.ApplyButton | python-pendulum-simulation.py:255-260 | Start sets the run flag, Pause clears it, Reset resets without touching it, and no click changes nothing; the invariant is kept |
| PendulumApp.ClickKnobs | python-pendulum-simulation.py:263-266 | the four `check_click` calls change only drag flags; each flag is set iff its knob was clicked, or it was already set and the button is held; values and slider configuration are kept |
| PendulumApp.UpdateChain | python-pendulum-simulation.py:268-273 | the `or` chain reports a change iff the button is held and some slider is dragging; without a change the panel is untouched; for each of the four sliders, when it is the first dragging one in order, it alone changes, to `Slider.update`'s result for the mouse x |
| PendulumApp.ApplySliders | python-pendulum-simulation.py:263-281 | the invariant (parameters equal slider values, sliders in range) is kept; velocity, acceleration, run flag and trail are untouched; the panel is the update chain's result after the knob clicks; when the chain reports a change, the angle slider is additionally re-updated; without a change the parameters are kept; the pendulum moves to the angle slider's angle iff the button is held and the angle knob is being dragged after the clicks, and otherwise its angle is unchanged |
| PendulumApp.Advance | python-pendulum-simulation.py:284-291 | a running frame does one physics step with the capped dt and pushes the new bob position onto the trail |
| PendulumApp.FramePushed | python-pendulum-simulation.py:284-289 | a frame pushes one position iff the run flag is set after the buttons are handled |
| PendulumApp.Frame | python-pendulum-simulation.py:234-291 | one pass keeps the invariant and the slider configuration; the run flag follows the button priority; the trail is the last 100 of the old trail plus this frame's push (emptied first on Reset); parameters and panel are those left by the button and slider handling; a running frame steps with the capped dt and pushes the resulting state's bob position; a stopped frame does only the button and slider handling |
| PendulumApp.IdleFrameIsNoOp | python-pendulum-simulation.py:255-291 | a stopped frame with no click, no held button and no drag changes nothing |
| PendulumApp.Run | python-pendulum-simulation.py:234-297 | every state the loop reaches satisfies the invariant |
| PendulumApp.RunTrailIsLastPushed | python-pendulum-simulation.py:284-291 | with no Reset among the frames, the trail equals the last 100 of the old trail followed by every pushed bob position, in push order |
| PendulumApp.RunKeepsInvariant | python-pendulum-simulation.py:276-279 | after any run the trail holds at most 100 points; length, gravity and damping equal their sliders' values; length and gravity stay positive |
| Grid.Linspace | shm-simulation.py:19 | `num` samples; the first is `a` and the last is exactly `b` |
| Grid.LinspaceEvenlySpaced | shm-simulation.py:19 | consecutive samples differ by `(b - a)/(num - 1)`, the last gap included |
| Grid.LinspaceSample | shm-simulation.py:70 | for `a <= b` every sample lies in `[a, b]` |
| Oscillator.TimeGrid | shm-simulation.py:19 | the grid has 1000 samples from 0 to 10 |
| Oscillator.SampleSpacing | shm-simulation.py:20 | `dt = t[1] - t[0]` is 10/999 |
| Oscillator.XPosition | shm-simulation.py:29-39 | at t = 0 the position is the amplitude A in every branch |
| Oscillator.DampedOmegaPositive | shm-simulation.py:34-36 | the script's `omega_d > 0` holds iff k/m > γ², and then `omega_d = sqrt(k/m - γ²)` |
| Oscillator.XPositionByRegime | shm-simulation.py:29-39 | with c = 0 the result is `A cos(sqrt(k/m) t)`; with ω² > γ² it is `A e^(-γt) cos(sqrt(k/m - γ²) t)`; otherwise it is `A e^(-γt)` |
| Oscillator.InitialRunUnderdamped | shm-simulation.py:11-15 | the starting parameters (mass 1, k 10, c 0.1) are underdamped, so the decaying cosine is plotted, and it starts at the amplitude 1 m |
| Oscillator.Derive | shm-simulation.py:24-26 | ω > 0 with ω² = k/m; the period is positive with `period*ω = 2π`; `period*frequency = 1` |
| Oscillator.Resample | shm-simulation.py:42 | one output per sample time, each equal to `x_position` at that time |
| Oscillator.Update | shm-simulation.py:118-126 | the new positions depend only on the new parameters: all 1000 grid samples are recomputed, and the first is the amplitude |
| Oscillator.PlaybackTime | shm-simulation.py:87 | the playback time always lies in `[0, 10)`, and frame `i` of the first 500 plays at `i/50` seconds |
| Oscillator.AnimIndex | shm-simulation.py:86-90 | for every integer frame number the index is non-negative and, for a non-empty sequence, inside it |
| Oscillator.AnimIndexPeriodic | shm-simulation.py:87-90 | frame `i + 500` reads the same index as frame `i` |
| Oscillator.AnimIndexNeverWraps | shm-simulation.py:88-90 | on the 1000-sample grid the `idx >= len` fallback never fires, and the index is at most 998 |
| Spring.CoilBounds | shm-simulation.py:74-75 | for `20c` samples the coiled range is `[2c, 18c)` |
| Spring.SpringPoints | shm-simulation.py:68-83 | a shape comes back iff `coils > 0`; a negative count is `linspace`'s error and zero coils the empty-index error; x and y both have `20*coils` samples |
| Spring.SpringEndpoints | shm-simulation.py:70-83 | the first x is -2 and the last is `x`; outside `[2c, 18c)` y is 0 and x is the straight line's sample |
| Spring.CoilSamples | shm-simulation.py:78-81 | inside `[2c, 18c)` the y-coordinate is `width·sin(2π(j − 2c)/20)` and the x-coordinate is sample `j − 2c` of the `16c` evenly spaced points from the straight line's x at `2c` to its x at `18c` |
| Spring.CoilMeetsStraightParts | shm-simulation.py:78-81 | x at the first coil index is unchanged, and the coil's last x equals the first x of the straight lead-out |

## Left out

- Drawing, fonts, window and figure setup are not modelled. This covers
  `draw`, `Button.draw`, `Button.check_hover`, `Slider.draw`,
  `Slider.set_knob_pos`, the matplotlib axes and `plt.show`. None of it
  affects the modelled state.
- The knob's hit-rectangle is not modelled. Its position follows the value,
  and that geometry is drawing code. `PendulumApp.Knobs` gives "is the mouse
  over this knob" as a frame input instead.
- Wall-clock time is not modelled (`pygame.time.get_ticks`, `clock.tick`,
  `FuncAnimation` scheduling). The frame's `dt` and the animation frame
  number are inputs. `AnimIndex` accepts any integer frame, not only the
  500 frames `FuncAnimation` cycles through.
- The `QUIT` event and the end of the main loop are not modelled. They only
  end the process.
- The energy display (python-pendulum-simulation.py:206-210) is not
  modelled. It mixes screen-space pixel coordinates into the potential energy.
- The y-limit update, the text updates of `update_text` and the matplotlib
  slider `reset` callback are not modelled. `update_text`'s computation is
  the same ω, period and frequency that `Oscillator.Derive` models.
- IEEE floating-point rounding is not modelled, and neither is the actual
  behaviour of the transcendental functions. As a result, the model gives 30
  for the angle slider's initial value, where the script's float gives
  29.999999999999996. The model also makes no energy-drift or
  period-accuracy claims.
- The numpy vectorisation is not modelled as such. `x_position` is modelled
  at a single time point, and `Resample` maps it over the grid.
- Pendulum.Period: requires a non-zero gravity and a non-negative
  `length/gravity`. Otherwise the script raises `ZeroDivisionError` or
  `ValueError`, and no error value is modelled.
- Oscillator.Derive: requires lawful math functions, `mass > 0` and
  `k > 0`. Otherwise numpy would produce `inf` or `nan`, and the model does
  not represent those.
- Oscillator.XPosition: requires `mass > 0` and `k > 0`, which the sliders
  guarantee (mass ≥ 0.1, k ≥ 1). Outside that range the script divides by
  zero or takes the square root of a negative number. For `k = 0`, or for
  `k/m < 0` with damping, it would still return a finite value, and the
  model does not cover those inputs.

=== FILE: grid.dfy ===
/** `numpy.linspace` over the reals. */
module Grid {

  /** `np.linspace(a, b, num)` with the default `endpoint=True`: `num` evenly
      spaced samples from `a` to `b`; the last one is `b` exactly, as numpy
      writes it in after scaling. */
  function Linspace(a: real, b: real, num: nat): (xs: seq<real>)
    ensures |xs| == num
    ensures num >= 1 ==> xs[0] == a
    ensures num >= 2 ==> xs[num - 1] == b
  {
    if num == 0 then []
    else if num == 1 then [a]
    else
      var step := (b - a) / (num - 1) as real;
      seq(num, j requires 0 <= j < num => if j == num - 1 then b else a + j as real * step)
  }

  /** Linspace samples are evenly spaced: every gap is `(b - a) / (num - 1)`,
      the last one included. */
  lemma LinspaceEvenlySpaced(a: real, b: real, num: nat, j: nat)
    requires 2 <= num && j + 1 < num
    ensures Linspace(a, b, num)[j + 1] - Linspace(a, b, num)[j] == (b - a) / (num - 1) as real
  {
    var xs := Linspace(a, b, num);
    var step := (b - a) / (num - 1) as real;
    assert step * (num - 1) as real == b - a;
    assert xs[j] == a + j as real * step;
    if j + 1 == num - 1 {
      assert xs[j + 1] == b;
      assert j as real * step + step == (num - 1) as real * step;
    } else {
      assert xs[j + 1] == a + (j + 1) as real * step;
    }
  }

  /** With `a <= b` no sample leaves the interval `[a, b]`. */
  lemma LinspaceSample(a: real, b: real, num: nat, j: nat)
    requires 2 <= num && j < num
    requires a <= b
    ensures a <= Linspace(a, b, num)[j] <= b
  {
    var step := (b - a) / (num - 1) as real;
    assert 0.0 <= step;
    assert step * (num - 1) as real == b - a;
    if j < num - 1 {
      assert Linspace(a, b, num)[j] == a + j as real * step;
      NonNegativeProduct((num - 1) as real - j as real, step);
      assert j as real * step <= (num - 1) as real * step;
      assert j as real * step <= b - a;
    }
  }

  lemma NonNegativeProduct(a: real, b: real)
    requires 0.0 <= a && 0.0 <= b
    ensures 0.0 <= a * b
  {
  }
}

=== FILE: oscillator.dfy ===
/** The spring-mass window's physics: the closed-form damped-oscillator
    position `x_position`, the derived angular frequency, period and
    frequency, the full resample of the position grid on every parameter
    change, and the animation's index into that grid. */
module Oscillator {
  import opened RealMath
  import opened Grid

  /** Mass (kg), spring constant (N/m), amplitude (m), damping coefficient. */
  datatype OscParams = OscParams(mass: real, k: real, amplitude: real, damping: real) {
    /** The square root and the divisions need a positive mass and a
        positive spring constant; the sliders never leave that range. */
    predicate Valid() {
      0.0 < mass && 0.0 < k
    }
  }

  /** The script's starting parameters. */
  const InitialParams: OscParams := OscParams(1.0, 10.0, 1.0, 0.1)

  /** The time grid `np.linspace(0, 10, 1000)` and the animation interval. */
  const Duration: real := 10.0
  const Samples: nat := 1000
  const IntervalMs: int := 20

  /** The fixed time grid every position sequence is sampled on. */
  function TimeGrid(): (ts: seq<real>)
    ensures |ts| == Samples
    ensures ts[0] == 0.0 && ts[Samples - 1] == Duration
  {
    Linspace(0.0, Duration, Samples)
  }

  /** `dt = t[1] - t[0]`: the grid's spacing, 10 / 999 seconds. */
  function SampleSpacing(): (dt: real)
    ensures dt == Duration / (Samples - 1) as real
  {
    LinspaceEvenlySpaced(0.0, Duration, Samples, 0);
    TimeGrid()[1] - TimeGrid()[0]
  }

  /** `omega = sqrt(k / m)`, the undamped angular frequency. */
  function Omega(m: Math, p: OscParams): real
    requires p.Valid()
  {
    Sqrt(m, p.k / p.mass)
  }

  /** `gamma = c / (2 m)`. */
  function Gamma(p: OscParams): real
    requires p.Valid()
  {
    p.damping / (2.0 * p.mass)
  }

  /** `omega_d`: `sqrt(omega^2 - gamma^2)` when `omega^2 > gamma^2`, else 0. */
  function DampedOmega(m: Math, p: OscParams): real
    requires p.Valid()
  {
    var omega := Omega(m, p);
    var gamma := Gamma(p);
    if omega * omega > gamma * gamma then Sqrt(m, omega * omega - gamma * gamma) else 0.0
  }

  /** The closed forms `x_position` chooses between. */
  function Harmonic(m: Math, p: OscParams, t: real): real
    requires p.Valid()
  {
    p.amplitude * Cos(m, Omega(m, p) * t)
  }

  function DecayingCosine(m: Math, p: OscParams, w: real, t: real): real
    requires p.Valid()
  {
    p.amplitude * Exp(m, -Gamma(p) * t) * Cos(m, w * t)
  }

  function Decay(m: Math, p: OscParams, t: real): real
    requires p.Valid()
  {
    p.amplitude * Exp(m, -Gamma(p) * t)
  }

  /** `x_position(t, A, m, k, c)`: undamped cosine when `c == 0`; otherwise
      the decaying cosine with the damped frequency when that frequency comes
      out positive, and a bare decaying exponential when it does not (the
      script's stand-in for the over-damped solution). */
  function XPosition(m: Math, p: OscParams, t: real): (x: real)
    requires p.Valid()
    ensures Lawful(m) && t == 0.0 ==> x == p.amplitude
  {
    if p.damping == 0.0 then Harmonic(m, p, t)
    else if DampedOmega(m, p) > 0.0 then DecayingCosine(m, p, DampedOmega(m, p), t)
    else Decay(m, p, t)
  }

  /** The three regimes, told apart by the physics (omega^2 = k / m against
      gamma^2) rather than by the script's `omega_d > 0` test. */
  datatype Regime = Undamped | Underdamped | Overdamped

  function RegimeOf(p: OscParams): Regime
    requires p.Valid()
  {
    if p.damping == 0.0 then Undamped
    else if p.k / p.mass > Gamma(p) * Gamma(p) then Underdamped
    else Overdamped
  }

  /** The script's `omega_d > 0` test holds exactly when omega^2 > gamma^2,
      and then `omega_d = sqrt(k / m - gamma^2)`. */
  lemma DampedOmegaPositive(m: Math, p: OscParams)
    requires Lawful(m) && p.Valid()
    ensures DampedOmega(m, p) > 0.0 <==> p.k / p.mass > Gamma(p) * Gamma(p)
    ensures DampedOmega(m, p) > 0.0 ==> DampedOmega(m, p) == Sqrt(m, p.k / p.mass - Gamma(p) * Gamma(p))
  {
    var omega := Omega(m, p);
    var gamma := Gamma(p);
    assert omega * omega == p.k / p.mass;
    if omega * omega > gamma * gamma {
      var arg := omega * omega - gamma * gamma;
      assert arg == p.k / p.mass - Gamma(p) * Gamma(p);
      assert Sqrt(m, arg) == Sqrt(m, p.k / p.mass - Gamma(p) * Gamma(p));
      SqrtPositive(m, arg);
    }
  }

  /** `x_position` is the closed form of its regime: the plain cosine without
      damping, the decaying cosine at `sqrt(k / m - gamma^2)` exactly when
      omega^2 > gamma^2, and the bare exponential decay otherwise. */
  lemma XPositionByRegime(m: Math, p: OscParams, t: real)
    requires Lawful(m) && p.Valid()
    ensures RegimeOf(p) == Undamped ==> XPosition(m, p, t) == Harmonic(m, p, t)
    ensures RegimeOf(p) == Underdamped ==>
              XPosition(m, p, t) == DecayingCosine(m, p, Sqrt(m, p.k / p.mass - Gamma(p) * Gamma(p)), t)
    ensures RegimeOf(p) == Overdamped ==> XPosition(m, p, t) == Decay(m, p, t)
  {
    DampedOmegaPositive(m, p);
  }

  /** The angular frequency, period and frequency shown beside the plots. */
  datatype Derived = Derived(omega: real, period: real, frequency: real)

  /** `omega = sqrt(k / m)`, `period = 2 pi / omega`, `frequency = 1 / period`. */
  function Derive(m: Math, mass: real, k: real): (d: Derived)
    requires Lawful(m) && 0.0 < mass && 0.0 < k
    ensures 0.0 < d.omega && d.omega * d.omega == k / mass
    ensures 0.0 < d.period && d.period * d.omega == 2.0 * Pi
    ensures d.period * d.frequency == 1.0
  {
    SqrtPositive(m, k / mass);
    var omega := Sqrt(m, k / mass);
    var period := 2.0 * Pi / omega;
    Derived(omega, period, 1.0 / period)
  }

  /** The script's starting run (mass 1, k 10, c 0.1) is underdamped, and
      its plotted positions start at the amplitude, 1 m. */
  lemma InitialRunUnderdamped(m: Math)
    requires Lawful(m)
    ensures InitialParams.Valid() && RegimeOf(InitialParams) == Underdamped
    ensures XPosition(m, InitialParams, 0.0) == 1.0
    ensures XPosition(m, InitialParams, 0.0) == DecayingCosine(m, InitialParams, Sqrt(m, 10.0 - 0.0025), 0.0)
  {
    assert Gamma(InitialParams) == 0.05;
    XPositionByRegime(m, InitialParams, 0.0);
  }

  /** The spring window's state: the parameters last read from the sliders
      and the position sequence plotted and animated. */
  datatype Session = Session(params: OscParams, positions: seq<real>)

  /** `x_position` applied to every sample time, as numpy does elementwise. */
  method Resample(m: Math, p: OscParams, ts: seq<real>) returns (xs: seq<real>)
    requires p.Valid()
    ensures |xs| == |ts|
    ensures forall i :: 0 <= i < |ts| ==> xs[i] == XPosition(m, p, ts[i])
  {
    xs := [];
    var i := 0;
    while i < |ts|
      invariant 0 <= i <= |ts|
      invariant |xs| == i
      invariant forall j :: 0 <= j < i ==> xs[j] == XPosition(m, p, ts[j])
    {
      xs := xs + [XPosition(m, p, ts[i])];
      i := i + 1;
    }
  }

  /** `update(val)`: the whole position sequence is recomputed from the new
      parameters over the full fixed grid; nothing of the old sequence
      survives, and its first sample is the amplitude. */
  method Update(m: Math, s: Session, p: OscParams) returns (r: Session)
    requires p.Valid()
    ensures r.params == p
    ensures |r.positions| == Samples
    ensures forall i :: 0 <= i < Samples ==> r.positions[i] == XPosition(m, p, TimeGrid()[i])
    ensures Lawful(m) ==> r.positions[0] == p.amplitude
  {
    var xs := Resample(m, p, TimeGrid());
    r := Session(p, xs);
  }

  /** `current_t = (i * interval / 1000) % 10`: the playback time of frame
      `i`, in seconds, wrapped into the grid's duration. */
  function PlaybackTime(i: int): (t: real)
    ensures 0.0 <= t < Duration
    ensures 0 <= i < 500 ==> t == i as real / 50.0
  {
    FloorMod((i * IntervalMs) as real / 1000.0, Duration)
  }

  /** The index `animate` reads: `int(current_t / dt)`, reset to 0 when it
      runs past the end of `positions`. The quotient is never negative, so
      `int`'s truncation is a floor. Any integer frame number, and any
      non-empty position sequence, yields an index inside it. */
  function AnimIndex(i: int, count: nat): (idx: int)
    ensures 0 <= idx
    ensures 0 < count ==> idx < count
  {
    var q := PlaybackTime(i) / SampleSpacing();
    var idx := q.Floor;
    if idx >= count then 0 else idx
  }

  /** Playback repeats every 500 frames (500 * 20 ms = 10 s). */
  lemma AnimIndexPeriodic(i: int, count: nat)
    ensures AnimIndex(i + 500, count) == AnimIndex(i, count)
  {
    var x := (i * IntervalMs) as real / 1000.0;
    assert ((i + 500) * IntervalMs) as real / 1000.0 == x + Duration;
    FloorModShift(x, Duration);
  }

  /** On the 1000-sample grid the wrap-to-zero guard never fires: the index
      is always the plain quotient, and at most 998. */
  lemma AnimIndexNeverWraps(i: int)
    ensures AnimIndex(i, Samples) == (PlaybackTime(i) / SampleSpacing()).Floor
    ensures AnimIndex(i, Samples) <= 998
  {
    var t := PlaybackTime(i);
    var dt := SampleSpacing();
    assert t / dt == t * 99.9;
    assert t * 99.9 < 999.0;
  }

  /** Floored modulo ignores a shift by the divisor. */
  lemma FloorModShift(x: real, d: real)
    requires 0.0 < d
    ensures FloorMod(x + d, d) == FloorMod(x, d)
  {
    var y := x / d;
    var z := (x + d) / d;
    assert x == y * d;
    assert z * d == x + d;
    assert (z - y - 1.0) * d == 0.0;
    ZeroProduct(z - y - 1.0, d);
    assert (y + 1.0).Floor == y.Floor + 1;
  }
}

=== FILE: pendulum.dfy ===
/** The pendulum's physics: the semi-implicit Euler step of `update_physics`,
    its time-step cap, `reset_simulation`'s effect on the motion, the bob's
    screen position and the displayed period. */
module Pendulum {
  import opened RealMath
  import opened Trail

  /** The tunable constants: string length (m), gravity (m/s^2), damping. */
  datatype Params = Params(length: real, gravity: real, damping: real)

  /** The angular state: angle (rad), angular velocity (rad/s) and the
      angular acceleration (rad/s^2) computed by the latest step. */
  datatype Motion = Motion(angle: real, vel: real, acc: real)

  /** The largest time step handed to the integrator, in seconds. */
  const MaxDt: real := 0.05

  /** Pixels per metre, and the pivot's screen position. */
  const PixelsPerMetre: real := 150.0
  const PivotX: real := 400.0
  const PivotY: real := 100.0

  /** `min(dt, 0.05)`: the frame's elapsed time, capped. */
  function CapDt(dt: real): (h: real)
    ensures h <= MaxDt
    ensures h == dt || h == MaxDt
    ensures dt <= MaxDt ==> h == dt
  {
    if dt < MaxDt then dt else MaxDt
  }

  /** The damped pendulum's angular acceleration at a given angle and angular
      velocity: -(g / L) sin(angle) - damping * velocity. */
  function Accel(m: Math, p: Params, angle: real, vel: real): real
    requires p.length != 0.0
  {
    -(p.gravity / p.length) * Sin(m, angle) - p.damping * vel
  }

  /** `update_physics(dt)`: the acceleration is evaluated at the old state,
      the velocity advances by acceleration times `dt`, and then the angle
      advances by the NEW velocity times `dt` (semi-implicit Euler). */
  function Step(m: Math, p: Params, s: Motion, dt: real): (r: Motion)
    requires p.length != 0.0
    ensures r.acc == Accel(m, p, s.angle, s.vel)
    ensures r.vel - s.vel == r.acc * dt
    ensures r.angle - s.angle == r.vel * dt
  {
    var acc := Accel(m, p, s.angle, s.vel);
    var vel := s.vel + acc * dt;
    Motion(s.angle + vel * dt, vel, acc)
  }

  /** With `dt = 0` the step leaves the angle and the angular velocity alone
      and only rewrites the acceleration. */
  lemma StepZeroDt(m: Math, p: Params, s: Motion)
    requires p.length != 0.0
    ensures Step(m, p, s, 0.0).angle == s.angle
    ensures Step(m, p, s, 0.0).vel == s.vel
    ensures Step(m, p, s, 0.0) == s.(acc := Accel(m, p, s.angle, s.vel))
  {
  }

  /** The angle an explicit (forward) Euler step would reach, using the OLD
      velocity. */
  function ExplicitEulerAngle(s: Motion, dt: real): real {
    s.angle + s.vel * dt
  }

  /** The step is semi-implicit: its angle differs from the explicit Euler
      angle by exactly acceleration times `dt` squared. */
  lemma StepIsSemiImplicit(m: Math, p: Params, s: Motion, dt: real)
    requires p.length != 0.0
    ensures Step(m, p, s, dt).angle == ExplicitEulerAngle(s, dt) + Step(m, p, s, dt).acc * dt * dt
  {
    var r := Step(m, p, s, dt);
    assert r.vel * dt == s.vel * dt + r.acc * dt * dt;
  }

  /** `reset_simulation`'s effect on the motion: the angle is taken from the
      angle slider (in degrees), velocity and acceleration are zeroed. */
  function ResetMotion(angleDeg: real): (r: Motion)
    ensures r.vel == 0.0 && r.acc == 0.0
    ensures r.angle * 180.0 == angleDeg * Pi
  {
    Motion(Radians(angleDeg), 0.0, 0.0)
  }

  /** `get_bob_position`: the bob's screen position for a given angle. */
  function BobPosition(m: Math, p: Params, angle: real): Point {
    Point(PivotX + Sin(m, angle) * p.length * PixelsPerMetre,
          PivotY + Cos(m, angle) * p.length * PixelsPerMetre)
  }

  /** At angle 0 the bob hangs straight below the pivot (screen y grows
      downwards), one rod length away. */
  lemma BobAtRest(m: Math, p: Params)
    requires Lawful(m)
    ensures BobPosition(m, p, 0.0) == Point(PivotX, PivotY + p.length * PixelsPerMetre)
  {
  }

  /** Whatever the angle, the bob stays on the circle of radius
      `length * 150` pixels around the pivot. */
  lemma BobOnCircle(m: Math, p: Params, angle: real)
    requires Lawful(m)
    ensures var pt := BobPosition(m, p, angle);
            (pt.x - PivotX) * (pt.x - PivotX) + (pt.y - PivotY) * (pt.y - PivotY)
              == (p.length * PixelsPerMetre) * (p.length * PixelsPerMetre)
  {
    var r := p.length * PixelsPerMetre;
    var s := Sin(m, angle);
    var c := Cos(m, angle);
    var pt := BobPosition(m, p, angle);
    assert pt.x - PivotX == s * r;
    assert pt.y - PivotY == c * r;
    assert s * s + c * c == 1.0;
    assert (s * r) * (s * r) + (c * r) * (c * r) == (s * s + c * c) * (r * r);
  }

  /** The displayed period, `2 * pi * sqrt(length / gravity)`. `math.sqrt`
      needs a non-negative argument and the division a non-zero gravity. */
  function Period(m: Math, p: Params): (t: real)
    requires p.gravity != 0.0 && 0.0 <= p.length / p.gravity
    ensures Lawful(m) ==> 0.0 <= t && t * t == 4.0 * Pi * Pi * (p.length / p.gravity)
    ensures Lawful(m) && 0.0 < p.length ==> 0.0 < t
  {
    var root := Sqrt(m, p.length / p.gravity);
    TwoPiRoot(m, p.length / p.gravity);
    2.0 * Pi * root
  }

  /** `2 * pi * sqrt(x)` is the non-negative number whose square is
      `4 * pi^2 * x`. */
  lemma TwoPiRoot(m: Math, x: real)
    ensures Lawful(m) && 0.0 <= x ==> 0.0 <= 2.0 * Pi * Sqrt(m, x)
    ensures Lawful(m) && 0.0 <= x ==> (2.0 * Pi * Sqrt(m, x)) * (2.0 * Pi * Sqrt(m, x)) == 4.0 * Pi * Pi * x
    ensures Lawful(m) && 0.0 < x ==> 0.0 < 2.0 * Pi * Sqrt(m, x)
  {
    if Lawful(m) && 0.0 <= x {
      var root := Sqrt(m, x);
      assert root * root == x;
      assert (2.0 * Pi * root) * (2.0 * Pi * root) == 4.0 * Pi * Pi * (root * root);
      if 0.0 < x {
        SqrtPositive(m, x);
      }
    }
  }
}

=== FILE: pendulum_app.dfy ===
/** The pendulum window's per-frame state machine: Start/Pause/Reset button
    handling, slider dragging and the parameter copy, and, while running, one
    physics step plus a trail push. */
module PendulumApp {
  import opened RealMath
  import opened Trail
  import opened Sliders
  import opened Pendulum

  /** A pygame rectangle, in pixels. */
  datatype Rect = Rect(x: int, y: int, w: int, h: int) {
    /** `Rect.collidepoint`: the left and top edges are inside, the right and
        bottom edges are not. */
    predicate Contains(px: int, py: int) {
      x <= px < x + w && y <= py < y + h
    }
  }

  /** The three buttons, 100 x 40 pixels, in an 800 x 600 window. */
  const StartRect: Rect := Rect(240, 520, 100, 40)
  const PauseRect: Rect := Rect(350, 520, 100, 40)
  const ResetRect: Rect := Rect(460, 520, 100, 40)

  /** Which slider knob, if any, the mouse is over this frame. The knob's
      geometry follows the value and belongs to drawing, so it is an input. */
  datatype Knobs = Knobs(length: bool, gravity: bool, damping: bool, angle: bool)

  /** What one frame of the main loop reads from outside: the elapsed time in
      seconds, the mouse position, whether any mouse button went down this
      frame, whether the left button is held, and the knob hits. */
  datatype Inputs = Inputs(dt: real, mouseX: int, mouseY: int, clicked: bool,
                           pressed: bool, knobs: Knobs)

  /** The four sliders, in the order the main loop polls them. */
  datatype Panel = Panel(length: Slider, gravity: Slider, damping: Slider, angle: Slider)

  /** The whole simulation: motion, physics parameters, run flag, trail and
      sliders. */
  datatype Sim = Sim(motion: Motion, params: Params, running: bool,
                     trail: seq<Point>, panel: Panel)

  /** The effect a frame's click has: at most one button acts. */
  datatype Action = StartRun | PauseRun | ResetRun | NoAction

  /** Every slider is well formed. */
  ghost predicate PanelValid(p: Panel) {
    && p.length.Valid() && p.gravity.Valid() && p.damping.Valid() && p.angle.Valid()
  }

  /** Track, range and step of every slider are as in `q`. */
  ghost predicate PanelSameConfig(p: Panel, q: Panel) {
    && p.length.SameConfig(q.length) && p.gravity.SameConfig(q.gravity)
    && p.damping.SameConfig(q.damping) && p.angle.SameConfig(q.angle)
  }

  /** The physics parameters are the length, gravity and damping sliders'
      values. */
  ghost predicate ParamsMirrorSliders(s: Sim) {
    s.params == Params(s.panel.length.value, s.panel.gravity.value, s.panel.damping.value)
  }

  /** What holds of every state the main loop reaches: well-formed sliders
      whose length and gravity ranges are strictly positive, parameters equal
      to the slider values, and a trail within its capacity. */
  ghost predicate Valid(s: Sim) {
    && PanelValid(s.panel)
    && 0.0 < s.panel.length.minVal
    && 0.0 < s.panel.gravity.minVal
    && ParamsMirrorSliders(s)
    && |s.trail| <= MaxPoints
  }

  /** The state the script starts in. */
  function Init(): (s: Sim)
    ensures Valid(s)
    ensures !s.running && s.trail == []
    ensures s.motion.vel == 0.0 && s.motion.acc == 0.0
    ensures s.motion.angle * 180.0 == 30.0 * Pi
  {
    Sim(Motion(Radians(30.0), 0.0, 0.0),
        Params(1.0, 9.8, 0.005),
        false,
        [],
        Panel(Slider(200, 400, 0.1, 2.0, 0.1, 1.0, false),
              Slider(200, 400, 1.0, 20.0, 0.1, 9.8, false),
              Slider(200, 400, 0.0, 0.1, 0.001, 0.005, false),
              Slider(200, 400, 0.0, 90.0, 1.0, 30.0, false)))
  }

  /** `Button.is_clicked`: a click this frame with the mouse over the button. */
  predicate Clicked(r: Rect, ev: Inputs) {
    ev.clicked && r.Contains(ev.mouseX, ev.mouseY)
  }

  /** The `if / elif / elif` over the three buttons: Start wins over Pause,
      which wins over Reset. */
  function ButtonAction(ev: Inputs): (a: Action)
    ensures a == StartRun <==> Clicked(StartRect, ev)
    ensures a == PauseRun <==> Clicked(PauseRect, ev) && !Clicked(StartRect, ev)
    ensures a == ResetRun <==> Clicked(ResetRect, ev) && !Clicked(StartRect, ev) && !Clicked(PauseRect, ev)
    ensures a == NoAction <==> !Clicked(StartRect, ev) && !Clicked(PauseRect, ev) && !Clicked(ResetRect, ev)
  {
    if Clicked(StartRect, ev) then StartRun
    else if Clicked(PauseRect, ev) then PauseRun
    else if Clicked(ResetRect, ev) then ResetRun
    else NoAction
  }

  /** The buttons do not overlap, so in the actual layout the priority never
      decides anything: a button acts exactly when it is clicked. */
  lemma ButtonsDisjoint(ev: Inputs)
    ensures !(StartRect.Contains(ev.mouseX, ev.mouseY) && PauseRect.Contains(ev.mouseX, ev.mouseY))
    ensures !(StartRect.Contains(ev.mouseX, ev.mouseY) && ResetRect.Contains(ev.mouseX, ev.mouseY))
    ensures !(PauseRect.Contains(ev.mouseX, ev.mouseY) && ResetRect.Contains(ev.mouseX, ev.mouseY))
    ensures ButtonAction(ev) == PauseRun <==> Clicked(PauseRect, ev)
    ensures ButtonAction(ev) == ResetRun <==> Clicked(ResetRect, ev)
  {
  }

  /** `reset_simulation`: the angle is taken from the angle slider, velocity,
      acceleration and trail are cleared; the run flag, parameters and sliders
      are untouched. */
  function ResetSim(s: Sim): (r: Sim)
    ensures r.motion.vel == 0.0 && r.motion.acc == 0.0
    ensures r.motion.angle * 180.0 == s.panel.angle.value * Pi
    ensures r.trail == []
    ensures r.running == s.running && r.params == s.params && r.panel == s.panel
  {
    s.(motion := ResetMotion(s.panel.angle.value), trail := [])
  }

  /** Apply the frame's button action. */
  function ApplyButton(s: Sim, a: Action): (r: Sim)
    requires Valid(s)
    ensures Valid(r)
    ensures r.panel == s.panel && r.params == s.params
    ensures a == ResetRun ==> r == ResetSim(s)
    ensures a != ResetRun ==> r.motion == s.motion && r.trail == s.trail
    ensures r.running == match a
                         case StartRun => true
                         case PauseRun => false
                         case _ => s.running
  {
    match a
    case StartRun => s.(running := true)
    case PauseRun => s.(running := false)
    case ResetRun => ResetSim(s)
    case NoAction => s
  }

  /** The four `check_click` calls. */
  function ClickKnobs(p: Panel, ev: Inputs): (r: Panel)
    requires PanelValid(p)
    ensures PanelValid(r) && PanelSameConfig(r, p)
    ensures r.length.value == p.length.value && r.gravity.value == p.gravity.value
    ensures r.damping.value == p.damping.value && r.angle.value == p.angle.value
    ensures r.length.dragging <==> (ev.clicked && ev.knobs.length) || (ev.pressed && p.length.dragging)
    ensures r.gravity.dragging <==> (ev.clicked && ev.knobs.gravity) || (ev.pressed && p.gravity.dragging)
    ensures r.damping.dragging <==> (ev.clicked && ev.knobs.damping) || (ev.pressed && p.damping.dragging)
    ensures r.angle.dragging <==> (ev.clicked && ev.knobs.angle) || (ev.pressed && p.angle.dragging)
  {
    Panel(CheckClick(p.length, ev.knobs.length, ev.clicked, ev.pressed),
          CheckClick(p.gravity, ev.knobs.gravity, ev.clicked, ev.pressed),
          CheckClick(p.damping, ev.knobs.damping, ev.clicked, ev.pressed),
          CheckClick(p.angle, ev.knobs.angle, ev.clicked, ev.pressed))
  }

  /** The short-circuit `or` over the four `update` calls: the first slider
      whose update fires stops the chain, so later sliders are not updated in
      that frame. */
  function UpdateChain(p: Panel, ev: Inputs): (r: (bool, Panel))
    requires PanelValid(p)
    ensures PanelValid(r.1) && PanelSameConfig(r.1, p)
    ensures r.0 <==> ev.pressed && (p.length.dragging || p.gravity.dragging || p.damping.dragging || p.angle.dragging)
    ensures !r.0 ==> r.1 == p
    ensures ev.pressed && p.length.dragging ==>
              r.1 == p.(length := Update(p.length, ev.mouseX, ev.pressed).slider)
    ensures ev.pressed && !p.length.dragging && p.gravity.dragging ==>
              r.1 == p.(gravity := Update(p.gravity, ev.mouseX, ev.pressed).slider)
    ensures ev.pressed && !p.length.dragging && !p.gravity.dragging && p.damping.dragging ==>
              r.1 == p.(damping := Update(p.damping, ev.mouseX, ev.pressed).slider)
    ensures ev.pressed && !p.length.dragging && !p.gravity.dragging && !p.damping.dragging && p.angle.dragging ==>
              r.1 == p.(angle := Update(p.angle, ev.mouseX, ev.pressed).slider)
  {
    var u1 := Update(p.length, ev.mouseX, ev.pressed);
    if u1.changed then (true, p.(length := u1.slider))
    else
      var u2 := Update(p.gravity, ev.mouseX, ev.pressed);
      if u2.changed then (true, p.(gravity := u2.slider))
      else
        var u3 := Update(p.damping, ev.mouseX, ev.pressed);
        if u3.changed then (true, p.(damping := u3.slider))
        else
          var u4 := Update(p.angle, ev.mouseX, ev.pressed);
          (u4.changed, p.(angle := u4.slider))
  }

  /** Lines 263-281 of the main loop: knob clicks, the update chain, and when
      any slider changed, the copy of all three parameters from the sliders
      and a second update of the angle slider that, when it fires, moves the
      pendulum to the slider's angle. */
  function ApplySliders(s: Sim, ev: Inputs): (r: Sim)
    requires Valid(s)
    ensures Valid(r)
    ensures PanelSameConfig(r.panel, s.panel)
    ensures r.running == s.running && r.trail == s.trail
    ensures r.motion.vel == s.motion.vel && r.motion.acc == s.motion.acc
    ensures var c := ClickKnobs(s.panel, ev);
            ev.pressed && c.angle.dragging ==> r.motion.angle * 180.0 == r.panel.angle.value * Pi
    ensures var c := ClickKnobs(s.panel, ev);
            !(ev.pressed && c.angle.dragging) ==> r.motion.angle == s.motion.angle
    ensures var q := UpdateChain(ClickKnobs(s.panel, ev), ev);
            !q.0 ==> r.panel == q.1 && r.params == s.params
    ensures var q := UpdateChain(ClickKnobs(s.panel, ev), ev);
            q.0 ==> r.panel == q.1.(angle := Update(q.1.angle, ev.mouseX, ev.pressed).slider)
  {
    var clicked := ClickKnobs(s.panel, ev);
    var (updated, panel) := UpdateChain(clicked, ev);
    if !updated then
      s.(panel := panel)
    else
      var params := Params(panel.length.value, panel.gravity.value, panel.damping.value);
      var u := Update(panel.angle, ev.mouseX, ev.pressed);
      var motion := if u.changed then s.motion.(angle := Radians(u.slider.value)) else s.motion;
      s.(motion := motion, params := params, panel := panel.(angle := u.slider))
  }

  /** The state after the buttons and sliders have been handled, before the
      physics step. */
  function Settle(s: Sim, ev: Inputs): (r: Sim)
    requires Valid(s)
    ensures Valid(r)
  {
    ApplySliders(ApplyButton(s, ButtonAction(ev)), ev)
  }

  /** One running frame: a physics step with the capped `dt`, then a trail
      push of the bob's new position. */
  function Advance(m: Math, s: Sim, dt: real): (r: Sim)
    requires Valid(s)
    ensures Valid(r)
    ensures r.running == s.running && r.params == s.params && r.panel == s.panel
    ensures r.motion == Step(m, s.params, s.motion, CapDt(dt))
    ensures r.trail == LastN(s.trail + [BobPosition(m, s.params, r.motion.angle)], MaxPoints)
  {
    var motion := Step(m, s.params, s.motion, CapDt(dt));
    s.(motion := motion, trail := Push(s.trail, BobPosition(m, s.params, motion.angle)))
  }

  /** The bob positions a frame pushes on the trail: the bob's position after
      the physics step when the run flag is set once the buttons are handled,
      nothing otherwise. */
  function FramePushed(m: Math, s: Sim, ev: Inputs): (ps: seq<Point>)
    requires Valid(s)
    ensures |ps| <= 1
    ensures |ps| == 1 <==> Settle(s, ev).running
  {
    var settled := Settle(s, ev);
    if settled.running then
      [BobPosition(m, settled.params, Step(m, settled.params, settled.motion, CapDt(ev.dt)).angle)]
    else []
  }

  /** One pass of the main loop (drawing and frame pacing aside). */
  function Frame(m: Math, s: Sim, ev: Inputs): (r: Sim)
    requires Valid(s)
    ensures Valid(r)
    ensures PanelSameConfig(r.panel, s.panel)
    ensures r.running == match ButtonAction(ev)
                         case StartRun => true
                         case PauseRun => false
                         case _ => s.running
    ensures ButtonAction(ev) != ResetRun ==> r.trail == LastN(s.trail + FramePushed(m, s, ev), MaxPoints)
    ensures ButtonAction(ev) == ResetRun ==> r.trail == FramePushed(m, s, ev)
    ensures r.running ==> r.motion == Step(m, r.params, Settle(s, ev).motion, CapDt(ev.dt))
    ensures !r.running ==> r == Settle(s, ev)
    ensures r.running ==> FramePushed(m, s, ev) == [BobPosition(m, r.params, r.motion.angle)]
    ensures r.params == Settle(s, ev).params && r.panel == Settle(s, ev).panel
  {
    var settled := Settle(s, ev);
    if settled.running then Advance(m, settled, ev.dt) else settled
  }

  /** A paused frame with no click, no held button and no drag in progress
      changes nothing at all. */
  lemma IdleFrameIsNoOp(m: Math, s: Sim, ev: Inputs)
    requires Valid(s)
    requires !s.running && !ev.clicked && !ev.pressed
    requires !s.panel.length.dragging && !s.panel.gravity.dragging
    requires !s.panel.damping.dragging && !s.panel.angle.dragging
    ensures Frame(m, s, ev) == s
  {
    assert ButtonAction(ev) == NoAction;
    assert ClickKnobs(s.panel, ev) == s.panel;
  }

  /** A run of the main loop over a sequence of frame inputs. */
  function Run(m: Math, s: Sim, evs: seq<Inputs>): (r: Sim)
    requires Valid(s)
    ensures Valid(r)
    decreases |evs|
  {
    if |evs| == 0 then s else Run(m, Frame(m, s, evs[0]), evs[1..])
  }

  /** Every bob position pushed on the trail during a run, in push order. */
  function RunPushed(m: Math, s: Sim, evs: seq<Inputs>): seq<Point>
    requires Valid(s)
    decreases |evs|
  {
    if |evs| == 0 then []
    else FramePushed(m, s, evs[0]) + RunPushed(m, Frame(m, s, evs[0]), evs[1..])
  }

  /** No frame of the run clicks Reset (with the priority applied). */
  predicate NoReset(evs: seq<Inputs>) {
    forall i :: 0 <= i < |evs| ==> ButtonAction(evs[i]) != ResetRun
  }

  /** A run without Reset has no Reset in its first frame or in the rest. */
  lemma NoResetTail(evs: seq<Inputs>)
    requires 0 < |evs| && NoReset(evs)
    ensures ButtonAction(evs[0]) != ResetRun && NoReset(evs[1..])
  {
    forall i | 0 <= i < |evs[1..]|
      ensures ButtonAction(evs[1..][i]) != ResetRun
    {
      assert evs[1..][i] == evs[i + 1];
    }
  }

  /** Whatever mix of running, paused, started and stopped frames a run holds,
      as long as nothing resets it the trail ends up as the last `MaxPoints`
      of the old trail followed by every pushed bob position, in push order. */
  lemma {:induction false} RunTrailIsLastPushed(m: Math, s: Sim, evs: seq<Inputs>)
    requires Valid(s)
    requires NoReset(evs)
    ensures Run(m, s, evs).trail == LastN(s.trail + RunPushed(m, s, evs), MaxPoints)
    decreases |evs|
  {
    if |evs| == 0 {
      assert s.trail + RunPushed(m, s, evs) == s.trail;
    } else {
      var s1 := Frame(m, s, evs[0]);
      NoResetTail(evs);
      RunTrailIsLastPushed(m, s1, evs[1..]);
      assert RunPushed(m, s, evs) == FramePushed(m, s, evs[0]) + RunPushed(m, s1, evs[1..]);
      LastNChain(s.trail, FramePushed(m, s, evs[0]), s1.trail, RunPushed(m, s1, evs[1..]), MaxPoints);
    }
  }

  /** Every state a run reaches keeps the trail within its capacity and the
      physics parameters equal to the slider values. */
  lemma RunKeepsInvariant(m: Math, s: Sim, evs: seq<Inputs>)
    requires Valid(s)
    ensures |Run(m, s, evs).trail| <= MaxPoints
    ensures ParamsMirrorSliders(Run(m, s, evs))
    ensures 0.0 < Run(m, s, evs).params.length && 0.0 < Run(m, s, evs).params.gravity
  {
  }
}

=== FILE: real_math.dfy ===
/** Real-number stand-ins for the `math` / `numpy` primitives both scripts use.

    The transcendental functions are not interpreted: a `Math` value carries
    some `sin`, `cos`, `exp` and `sqrt`, and `Lawful` states the only facts any
    property below relies on. */
module RealMath {

  /** `math.pi` (equally `np.pi`), as the decimal the double prints as. */
  const Pi: real := 3.141592653589793

  /** The four transcendental functions, left uninterpreted. */
  datatype Math = Math(sin: real -> real, cos: real -> real, exp: real -> real, sqrt: real -> real)

  /** The four functions, applied. Every use goes through these, so that a
      value computed in one function is the same term wherever it is read. */
  function Sin(m: Math, x: real): real { m.sin(x) }
  function Cos(m: Math, x: real): real { m.cos(x) }
  function Exp(m: Math, x: real): real { m.exp(x) }
  function Sqrt(m: Math, x: real): real { m.sqrt(x) }

  /** The axioms the model relies on: sin 0 = 0, cos 0 = 1,
      sin^2 + cos^2 = 1, exp 0 = 1, and `sqrt` is the non-negative square
      root on the non-negative reals. */
  ghost predicate Lawful(m: Math) {
    && Sin(m, 0.0) == 0.0
    && Cos(m, 0.0) == 1.0
    && (forall x :: Sin(m, x) * Sin(m, x) + Cos(m, x) * Cos(m, x) == 1.0)
    && Exp(m, 0.0) == 1.0
    && forall x :: 0.0 <= x ==> 0.0 <= Sqrt(m, x) && Sqrt(m, x) * Sqrt(m, x) == x
  }

  /** `math.radians`: degrees to radians. */
  function Radians(deg: real): (rad: real)
    ensures rad * 180.0 == deg * Pi
  {
    deg * (Pi / 180.0)
  }

  /** The square root of a positive number is positive, so it may be divided by. */
  lemma SqrtPositive(m: Math, x: real)
    requires Lawful(m)
    requires 0.0 < x
    ensures 0.0 < Sqrt(m, x)
  {
    assert Sqrt(m, x) * Sqrt(m, x) == x;
  }

  /** A product with a non-zero factor vanishes only when the other does. */
  lemma ZeroProduct(a: real, d: real)
    requires d != 0.0
    requires a * d == 0.0
    ensures a == 0.0
  {
  }

  /** `max(lo, min(hi, v))`, the clamp both sliders use. */
  function Clamp(lo: real, hi: real, v: real): (r: real)
    requires lo <= hi
    ensures lo <= r <= hi
    ensures lo <= v <= hi ==> r == v
    ensures v < lo ==> r == lo
    ensures hi < v ==> r == hi
  {
    if hi < v then hi else if v < lo then lo else v
  }

  /** Python's `x % d` for a positive float divisor: floored modulo. */
  function FloorMod(x: real, d: real): (r: real)
    requires 0.0 < d
    ensures 0.0 <= r < d
    ensures 0.0 <= x < d ==> r == x
  {
    var q := (x / d).Floor;
    FloorInUnit(x, d);
    FloorBounds(x, d);
    x - q as real * d
  }

  /** Below the divisor the quotient's floor is 0. */
  lemma FloorInUnit(x: real, d: real)
    requires 0.0 < d
    ensures 0.0 <= x < d ==> (x / d).Floor == 0
  {
    var y := x / d;
    assert y * d == x;
    PositiveFactor(y, d);
    assert (1.0 - y) * d == d - x;
    PositiveFactor(1.0 - y, d);
  }

  /** A product with a positive factor has the sign of the other factor. */
  lemma PositiveFactor(a: real, b: real)
    requires 0.0 < b
    ensures 0.0 <= a * b ==> 0.0 <= a
    ensures 0.0 < a * b ==> 0.0 < a
  {
  }

  /** `q = floor(x / d)` brackets `x` between `q * d` and `q * d + d`. */
  lemma FloorBounds(x: real, d: real)
    requires 0.0 < d
    ensures (x / d).Floor as real * d <= x < (x / d).Floor as real * d + d
  {
    FloorScaled(x, d, x / d);
  }

  lemma FloorScaled(x: real, d: real, y: real)
    requires 0.0 < d
    requires y * d == x
    ensures y.Floor as real * d <= x < y.Floor as real * d + d
  {
    var q := y.Floor as real;
    var f := y - q;
    assert f < 1.0;
    assert f * d < d;
    assert y * d == q * d + f * d;
    assert x == q * d + f * d;
    assert x < q * d + d;
  }
}

=== FILE: slider.dfy ===
/** The pendulum window's value slider: dragging state and the quantiser that
    turns a mouse x-coordinate into a value on the slider's step grid. */
module Sliders {
  import opened RealMath

  /** A slider's track (left edge and width, in pixels), its range and step,
      its current value and whether the knob is being dragged. Knob geometry
      and the label are drawing concerns and are not kept here. */
  datatype Slider = Slider(left: int, width: int, minVal: real, maxVal: real,
                           step: real, value: real, dragging: bool)
  {
    /** What every slider the script builds satisfies: a non-empty track, a
        positive step, a non-empty range and a value inside it. */
    ghost predicate Valid() {
      && 0 < width
      && 0.0 < step
      && minVal < maxVal
      && minVal <= value <= maxVal
    }

    /** Same track, range and step (the value and dragging flag may differ). */
    ghost predicate SameConfig(other: Slider) {
      && left == other.left && width == other.width
      && minVal == other.minVal && maxVal == other.maxVal && step == other.step
    }
  }

  /** `Slider.update`'s result: whether the value was rewritten, and the slider. */
  datatype Updated = Updated(changed: bool, slider: Slider)

  /** Python 3's `round` on a float: nearest integer, ties to even. */
  function RoundHalfEven(x: real): (n: int)
    ensures -0.5 <= n as real - x <= 0.5
    ensures (n as real - x == 0.5 || x - n as real == 0.5) ==> n % 2 == 0
  {
    var f := x.Floor;
    var frac := x - f as real;
    if frac < 0.5 then f
    else if frac > 0.5 then f + 1
    else if f % 2 == 0 then f
    else f + 1
  }

  /** The knob's relative position along the track, clamped to [0, 1]: the
      fraction of the track left of the mouse, 0 left of the track and 1
      right of it. */
  function Ratio(s: Slider, px: int): (r: real)
    requires 0 < s.width
    ensures 0.0 <= r <= 1.0
    ensures s.left <= px <= s.left + s.width ==> r * s.width as real == (px - s.left) as real
    ensures px <= s.left ==> r == 0.0
    ensures s.left + s.width <= px ==> r == 1.0
  {
    QuotientPastOne((px - s.left) as real, s.width as real);
    Clamp(0.0, 1.0, (px - s.left) as real / s.width as real)
  }

  /** The value the mouse position points at, before any rounding: the
      track's left end reads `minVal`, its right end `maxVal`, and in
      between the value moves in proportion to the mouse. */
  function RawValue(s: Slider, px: int): (v: real)
    requires 0 < s.width && s.minVal <= s.maxVal
    ensures s.minVal <= v <= s.maxVal
    ensures px <= s.left ==> v == s.minVal
    ensures s.left + s.width <= px ==> v == s.maxVal
    ensures s.left <= px <= s.left + s.width ==>
              (v - s.minVal) * s.width as real == (px - s.left) as real * (s.maxVal - s.minVal)
  {
    var ratio := Ratio(s, px);
    UnitScale(ratio, s.maxVal - s.minVal);
    ProportionalScale(ratio, s.width as real, (px - s.left) as real, s.maxVal - s.minVal);
    s.minVal + ratio * (s.maxVal - s.minVal)
  }

  /** The number of whole steps from `minVal` that the raw value rounds to. */
  function StepCount(s: Slider, px: int): int
    requires 0 < s.width && s.minVal <= s.maxVal && 0.0 < s.step
  {
    RoundHalfEven((RawValue(s, px) - s.minVal) / s.step)
  }

  /** The value on the step grid, before the final clamp to the range. */
  function Snapped(s: Slider, px: int): real
    requires 0 < s.width && s.minVal <= s.maxVal && 0.0 < s.step
  {
    s.minVal + StepCount(s, px) as real * s.step
  }

  /** `Slider.update(pos, is_dragging)`: only while the mouse button is held
      and this slider's drag is active is the value re-quantised from the
      mouse x-coordinate; nothing else about the slider changes. */
  function Update(s: Slider, px: int, isDragging: bool): (r: Updated)
    requires s.Valid()
    ensures r.slider.Valid() && r.slider.SameConfig(s)
    ensures r.slider.dragging == s.dragging
    ensures r.changed <==> isDragging && s.dragging
    ensures !r.changed ==> r.slider == s
    ensures r.changed ==> s.minVal <= r.slider.value <= s.maxVal
  {
    if isDragging && s.dragging then
      Updated(true, s.(value := Clamp(s.minVal, s.maxVal, Snapped(s, px))))
    else
      Updated(false, s)
  }

  /** `Slider.check_click(pos, is_clicking)`: a click on the knob starts a drag;
      a released mouse button ends it; otherwise the drag state is kept. */
  function CheckClick(s: Slider, onKnob: bool, clicking: bool, pressed: bool): (r: Slider)
    ensures r == s.(dragging := r.dragging)
    ensures r.dragging <==> (clicking && onKnob) || (pressed && s.dragging)
  {
    if clicking && onKnob then s.(dragging := true)
    else if !pressed then s.(dragging := false)
    else s
  }

  /** Before the final clamp the value is the grid point `minVal + n * step`
      nearest to the raw value the mouse points at (within half a step). */
  lemma SnappedIsNearestGridPoint(s: Slider, px: int)
    requires s.Valid()
    ensures -s.step / 2.0 <= Snapped(s, px) - RawValue(s, px) <= s.step / 2.0
    ensures Update(s, px, true).changed ==> Update(s, px, true).slider.value == Clamp(s.minVal, s.maxVal, Snapped(s, px))
  {
    var raw := RawValue(s, px);
    var n := StepCount(s, px);
    WithinHalfStep(raw - s.minVal, s.step, n);
  }

  /** An integer `n` within 1/2 of `d / step` puts `n * step` within half a
      step of `d`. */
  lemma WithinHalfStep(d: real, step: real, n: int)
    requires 0.0 < step
    requires -0.5 <= n as real - d / step <= 0.5
    ensures -step / 2.0 <= n as real * step - d <= step / 2.0
  {
    var y := d / step;
    assert y * step == d;
    var e := n as real - y;
    assert -0.5 <= e <= 0.5;
    assert n as real * step - d == e * step;
    UnitScale(0.5 - e, step);
    UnitScale(e + 0.5, step);
  }

  /** On a slider whose range spans a whole number of steps, as every slider
      of the pendulum window does, the final clamp never fires: the value is
      always exactly `minVal + k * step` for some `0 <= k <= n`. */
  lemma ClampIdleOnAlignedGrid(s: Slider, px: int, n: nat)
    requires s.Valid()
    requires s.minVal + n as real * s.step == s.maxVal
    ensures 0 <= StepCount(s, px) <= n
    ensures Clamp(s.minVal, s.maxVal, Snapped(s, px)) == Snapped(s, px)
  {
    var raw := RawValue(s, px);
    var y := (raw - s.minVal) / s.step;
    assert y * s.step == raw - s.minVal;
    PositiveFactor(y, s.step);
    assert (n as real - y) * s.step == s.maxVal - raw;
    PositiveFactor(n as real - y, s.step);
    RoundStaysInRange(y, n);
    var k := StepCount(s, px);
    assert k as real * s.step <= n as real * s.step;
  }

  /** A fraction of a non-negative quantity lies between zero and it. */
  lemma UnitScale(a: real, b: real)
    requires 0.0 <= a <= 1.0 && 0.0 <= b
    ensures 0.0 <= a * b <= b
  {
    assert (1.0 - a) * b >= 0.0;
  }

  /** Dividing by a positive `w` keeps `w` or more at 1 or more. */
  lemma QuotientPastOne(a: real, w: real)
    requires 0.0 < w
    ensures w <= a ==> 1.0 <= a / w
  {
    var y := a / w;
    assert y * w == a;
    assert (y - 1.0) * w == a - w;
    PositiveFactor(y - 1.0, w);
  }

  /** Scaling both sides of `r * w == a` by `k`. */
  lemma ProportionalScale(r: real, w: real, a: real, k: real)
    ensures r * w == a ==> (r * k) * w == a * k
  {
    assert (r * k) * w == (r * w) * k;
  }

  /** Rounding a value in [0, n] stays in [0, n]. */
  lemma RoundStaysInRange(y: real, n: nat)
    requires 0.0 <= y <= n as real
    ensures 0 <= RoundHalfEven(y) <= n
  {
  }
}

=== FILE: spring.dfy ===
/** `spring_points`: the zig-zag polyline drawn from the wall at x = -2 to
    the mass at `x`. The first and last tenth of the samples are straight;
    the samples in between are re-spaced and displaced sideways into coils. */
module Spring {
  import opened RealMath
  import opened Grid

  /** Samples per coil (`pts_per_coil`). */
  const PointsPerCoil: int := 20

  /** The wall's x-coordinate, where the spring starts. */
  const WallX: real := -2.0

  /** The polyline's x- and y-coordinates. */
  datatype Shape = Shape(xs: seq<real>, ys: seq<real>)

  /** The outcome of `spring_points`: the shape, or the error numpy raises —
      a `ValueError` from `linspace` for a negative sample count, or an
      `IndexError` from indexing the empty array when there are no coils. */
  datatype SpringResult = Drawn(shape: Shape) | NegativeCount | EmptySpring

  /** `int(0.1 * n)` and `int(0.9 * n)`: the coiled index range's bounds. */
  function CoilStart(n: nat): int {
    (0.1 * n as real).Floor
  }

  function CoilEnd(n: nat): int {
    (0.9 * n as real).Floor
  }

  /** For `coils * 20` samples the coiled range is `[2 * coils, 18 * coils)`. */
  lemma CoilBounds(coils: nat)
    ensures CoilStart(coils * PointsPerCoil) == 2 * coils
    ensures CoilEnd(coils * PointsPerCoil) == 18 * coils
  {
    assert 0.1 * (coils * PointsPerCoil) as real == (2 * coils) as real;
    assert 0.9 * (coils * PointsPerCoil) as real == (18 * coils) as real;
  }

  /** `spring_points(x, coils, width)`. */
  function SpringPoints(m: Math, x: real, coils: int, width: real): (r: SpringResult)
    ensures r.Drawn? <==> 0 < coils
    ensures coils < 0 ==> r == NegativeCount
    ensures coils == 0 ==> r == EmptySpring
    ensures r.Drawn? ==> |r.shape.xs| == |r.shape.ys| == coils * PointsPerCoil
  {
    if coils < 0 then NegativeCount
    else if coils == 0 then EmptySpring
    else
      var n := coils * PointsPerCoil;
      var straight := Linspace(WallX, x, n);
      CoilBounds(coils);
      var cs := CoilStart(n);
      var ce := CoilEnd(n);
      var coilX := Linspace(straight[cs], straight[ce], ce - cs);
      var ys := seq(n, j requires 0 <= j < n =>
                  if cs <= j < ce then width * Sin(m, 2.0 * Pi * (j - cs) as real / PointsPerCoil as real)
                  else 0.0);
      var xs := seq(n, j requires 0 <= j < n =>
                  if cs <= j < ce then coilX[j - cs] else straight[j]);
      Drawn(Shape(xs, ys))
  }

  /** The spring runs from the wall to the mass: the first point is at the
      wall and the last at `x`; every sample outside the coiled range
      `[2 * coils, 18 * coils)` lies on the axis, and every sample outside it
      keeps its evenly spaced straight-line x. */
  lemma SpringEndpoints(m: Math, x: real, coils: int, width: real)
    requires 0 < coils
    ensures SpringPoints(m, x, coils, width).Drawn?
    ensures SpringPoints(m, x, coils, width).shape.xs[0] == WallX
    ensures SpringPoints(m, x, coils, width).shape.xs[coils * PointsPerCoil - 1] == x
    ensures forall j :: 0 <= j < coils * PointsPerCoil && !(2 * coils <= j < 18 * coils) ==>
              SpringPoints(m, x, coils, width).shape.ys[j] == 0.0
    ensures forall j :: 0 <= j < coils * PointsPerCoil && !(2 * coils <= j < 18 * coils) ==>
              SpringPoints(m, x, coils, width).shape.xs[j] == Linspace(WallX, x, coils * PointsPerCoil)[j]
  {
    CoilBounds(coils);
  }

  /** Inside the coiled range `[2c, 18c)` the spring swings sideways along a
      sine of period 20 samples, in phase with the coil's first sample, and
      its x-coordinates are re-spaced evenly between the straight line's
      samples at `2c` and `18c`. */
  lemma CoilSamples(m: Math, x: real, coils: int, width: real)
    requires 0 < coils
    ensures SpringPoints(m, x, coils, width).Drawn?
    ensures forall j :: 2 * coils <= j < 18 * coils ==>
              SpringPoints(m, x, coils, width).shape.ys[j]
                == width * Sin(m, 2.0 * Pi * (j - 2 * coils) as real / PointsPerCoil as real)
    ensures forall j :: 2 * coils <= j < 18 * coils ==>
              SpringPoints(m, x, coils, width).shape.xs[j]
                == Linspace(Linspace(WallX, x, coils * PointsPerCoil)[2 * coils],
                            Linspace(WallX, x, coils * PointsPerCoil)[18 * coils],
                            16 * coils)[j - 2 * coils]
  {
    CoilBounds(coils);
  }

  /** The coil starts exactly where the straight lead-in would have put it,
      and its last sample lands on the first sample of the straight lead-out:
      the coil's x-range is stretched to `[straight[2c], straight[18c]]`. */
  lemma CoilMeetsStraightParts(m: Math, x: real, coils: int, width: real)
    requires 0 < coils
    ensures SpringPoints(m, x, coils, width).Drawn?
    ensures SpringPoints(m, x, coils, width).shape.xs[2 * coils] == Linspace(WallX, x, coils * PointsPerCoil)[2 * coils]
    ensures SpringPoints(m, x, coils, width).shape.xs[18 * coils - 1] == SpringPoints(m, x, coils, width).shape.xs[18 * coils]
  {
    CoilBounds(coils);
  }
}

=== FILE: trail.dfy ===
/** The pendulum's trail: a bounded FIFO of recent bob positions. */
module Trail {

  /** A screen-space position, in pixels. */
  datatype Point = Point(x: real, y: real)

  /** `max_trail_points`. */
  const MaxPoints: nat := 100

  /** The last `n` elements of `s` (all of it when it is shorter). */
  function LastN<T>(s: seq<T>, n: nat): (r: seq<T>)
    ensures |r| == if |s| <= n then |s| else n
    ensures r == s[|s| - |r|..]
  {
    if |s| <= n then s else s[|s| - n..]
  }

  /** Append a point and evict the oldest one when the trail grows past its
      capacity. */
  function Push(trail: seq<Point>, p: Point): (r: seq<Point>)
    requires |trail| <= MaxPoints
    ensures |r| <= MaxPoints
    ensures r == LastN(trail + [p], MaxPoints)
  {
    var grown := trail + [p];
    if |grown| > MaxPoints then grown[1..] else grown
  }

  /** Push a whole sequence of points, oldest first. */
  function PushAll(trail: seq<Point>, ps: seq<Point>): (r: seq<Point>)
    requires |trail| <= MaxPoints
    ensures |r| <= MaxPoints
    decreases |ps|
  {
    if |ps| == 0 then trail else PushAll(Push(trail, ps[0]), ps[1..])
  }

  /** Trimming to the last `n` first and then appending keeps the same last `n`
      as appending to the untrimmed sequence. */
  lemma LastNAppend<T>(a: seq<T>, c: seq<T>, n: nat)
    ensures LastN(LastN(a, n) + c, n) == LastN(a + c, n)
  {
    var a' := LastN(a, n);
    var k := |a| - |a'|;
    assert a == a[..k] + a';
    assert a + c == a[..k] + (a' + c);
  }

  /** Keeping the last `n` twice, with more appended in between, keeps the
      last `n` of everything appended in order. */
  lemma LastNChain<T>(t: seq<T>, p: seq<T>, t1: seq<T>, rest: seq<T>, n: nat)
    requires t1 == LastN(t + p, n)
    ensures LastN(t1 + rest, n) == LastN(t + (p + rest), n)
  {
    LastNAppend(t + p, rest, n);
    assert t + p + rest == t + (p + rest);
  }

  /** After any sequence of pushes the trail holds exactly the last
      `MaxPoints` points of the old trail followed by the pushed points, in
      push order. */
  lemma {:induction false} PushAllKeepsLast(trail: seq<Point>, ps: seq<Point>)
    requires |trail| <= MaxPoints
    ensures PushAll(trail, ps) == LastN(trail + ps, MaxPoints)
    decreases |ps|
  {
    if |ps| == 0 {
      assert trail + ps == trail;
    } else {
      var t1 := Push(trail, ps[0]);
      PushAllKeepsLast(t1, ps[1..]);
      LastNChain(trail, [ps[0]], t1, ps[1..], MaxPoints);
      assert [ps[0]] + ps[1..] == ps;
    }
  }
}
